=== FILE: README.md ===
# PixelMind form state machine, in Dafny

PixelMind is a single page on which a user picks a generative-image model, fills a form generated
from that model's input schema, and submits a generation request. The page keeps all of its state
in one record (`models`, `selectedModel`, `schema`, `inputValues`, `isLoading`, `generatedImage`,
`loadingModels`, `loadingSchema`, `error`) and changes it only in response to a few events: the model
list arriving or failing, a model being picked, a schema arriving (found, empty or failed), a field
being edited, the form being submitted, and the generated image arriving or failing.

This project models that record as an immutable datatype with one pure transition per event, and
proves what each transition changes and what it leaves alone.

- `options.dfy` (`Options`): `Option`, for `T | null` and optional members.
- `json.dfy` (`Json`): the tagged value standing for the source's `any`. It covers null, booleans,
  numbers, strings, arrays and objects. Absence (`undefined`) is a missing map key.
- `ai_types.dfy` (`AiTypes`): `Model`, `SchemaProperty` (with an optional `default`), `SchemaInput`
  and `Schema`. A schema's properties are a `map`, and its `required` names are a `seq`.
- `default_input.dfy` (`DefaultInput`): `getDefaultInputValues`. It is a loop over the property
  entries in arbitrary order, proved equal to the reference map `DefaultValues`.
- `form_state.dfy` (`FormState`): the state record, its transitions, `isFormValid`, the enabling
  guard of the submit button, and the request body.
- `orchestration.dfy` (`Orchestration`): a `World` is the state record plus the requests in flight.
  `Step` applies one event when it can happen: a response needs an outstanding request, and a user
  action needs its control enabled. `Enabled` also holds the model picker's guard: no selection
  while the models fetch is outstanding (src/app/page.tsx:130). Responses may arrive in any order.
  The file also holds the invariants of every reachable world and two traces, for any models and ids.

Network calls are not performed. Their outcomes are event arguments:
- the model list;
- the schema reply: a schema, a `null` (falsy) JSON body, or a failure;
- the image reply: a body text, or a network failure.

Any HTTP status counts as an image reply with a body, because `fetch` only rejects on network errors.
The body text becomes the image reference.

Behaviours of the page that a reader might not expect, all modelled as the code has them:
- A schema response is applied even when the user has selected another model since it was requested.
  No request token exists. `StaleSchemaIsApplied` shows a four-event trace that ends with `b` selected
  but `a`'s schema and defaults on display.
- A new submission does not clear `generatedImage`.
- Selecting a model resets neither the inputs nor the image. The inputs are rebuilt only when a
  schema arrives.
- `null`, `0` and `false` fill a required field. Only absence and `""` do not.
- `handleSubmit` itself does not check `isLoading`. Only the disabled button prevents a second
  submission.
- An empty schema response leaves `loadingSchema` as it was: true unless another schema reply already cleared it.

The submit event only happens while the generate button is enabled. That requires no submission
to be running and the form to be valid. It also has to pass the browser's check of the inputs marked
`required` (src/app/page.tsx:167-169). Each input displays `inputValues[key] || ""` as text. So a
required field holding `null`, `false` or `0` shows as empty and blocks the submit, even though
`isFormValid` counts it as filled. An array shows the comma join of its elements, so `[]`, `[null]`,
`[""]` and `[[]]` show as empty too, while `[0]` shows "0". A declared default of any of these in a
required field blocks the submit until the user types over it. An HTML form whose default button is disabled does not
submit on Enter either. So the validation branch of `handleSubmit` is never reached from the page.
`HandleSubmit` still models both branches, and the invariant records that the validation message
never appears.

## Model

| member | source | states |
|---|---|---|
| DefaultInput.GetDefaultInputValues | src/utils/defaultInput.util.ts:1-6 | A key is in the result iff it is a property that declares a default. Its value is that default. The keys are a subset of the property names. The result does not depend on the visiting order. |
| DefaultInput.NoDeclaredDefaultsGiveEmpty | src/utils/defaultInput.util.ts:2-5 | Properties none of which declare a default, including no properties at all, give the empty map. |
| DefaultInput.PropertyWithoutDefaultAddsNothing | src/utils/defaultInput.util.ts:3 | Adding a property without a default leaves the defaults unchanged. Replacing one with such a property only drops that name. |
| DefaultInput.DefaultsIgnoreOtherMetadata | src/utils/defaultInput.util.ts:3 | Only the declared defaults matter. Type, description and bounds do not change the result. |
| DefaultInput.DefaultsExample | src/utils/defaultInput.util.ts:2-5 | `{a: {default: 5}, b: {}}` gives `{a: 5}`, with `b` absent. |
| FormState.AllFilled | src/app/page.tsx:98 | The left-to-right `every` over the required names holds iff each required name has a value other than `""`. |
| FormState.IsFormValid | src/app/page.tsx:95-100 | The form is invalid with no selected model or no schema. Otherwise it is valid iff every required name maps to a present value other than `""`. |
| FormState.FilledByAnyNonEmptyValue | src/app/page.tsx:98 | A field counts as filled iff its value is not `""`. `null` and `0` count as filled. |
| FormState.ClearingRequiredFieldInvalidates | src/app/page.tsx:98 | Editing a required field to `""` makes the form invalid. |
| FormState.RequiredPairExample | src/app/page.tsx:95-100 | With required `[a, b]` and only `a` filled, the form is invalid. Typing into `b` makes it valid. |
| FormState.EditingKeepsValidity | src/app/page.tsx:168 | Typing non-empty text into any field keeps a valid form valid. |
| FormState.SubmitEnabled | src/app/page.tsx:183 | The generate button is enabled iff no submission is running, a model is selected, a schema is loaded and every required name is filled. |
| FormState.SubmitReachesHandler | src/app/page.tsx:167-169 | A click reaches `handleSubmit` only if the button is enabled and every required input that the page renders shows non-empty text. A value shows text iff it is truthy and is not an array that joins to "". |
| Json.BlankArrays | src/app/page.tsx:167 | `[]`, `[null]`, `[""]`, `[[]]` and `[[null]]` display as empty text. `[0]` and `[false]` display "0" and "false". |
| Json.SeveralElementsJoinToText | src/app/page.tsx:167 | An array of two or more elements never displays as empty text, because the join puts a comma between them. |
| FormState.FilledValueShowsUnlessBlank | src/app/page.tsx:167 | A field filled for `isFormValid` shows text iff its value is not `null`, `false`, `0` or an array that joins to "". |
| FormState.FalsyRequiredValueBlocksSubmit | src/app/page.tsx:167-169 | A rendered required field holding `null`, `false` or `0` counts as filled, but the browser blocks the submit. |
| FormState.BlankArrayRequiredValueBlocksSubmit | src/app/page.tsx:167-169 | A rendered required field holding an array that joins to "", such as `[]`, counts as filled, but the browser blocks the submit. |
| FormState.EnabledButtonReachesHandler | src/app/page.tsx:167-183 | When no input holds `null`, `false`, `0` or an array that joins to "", an enabled button always reaches `handleSubmit`. |
| FormState.RequestBody | src/app/page.tsx:82 | The body's keys are `model` plus the input names. Every input value is sent as is, so an input named `model` overrides the selection. Otherwise `model` is the selected id. |
| FormState.OnModelsLoaded | src/app/page.tsx:31-34 | The list is stored and model loading stops. Nothing else changes, including `error`. |
| FormState.OnModelsFailed | src/app/page.tsx:35-38 | `error` becomes "Failed to fetch models." and model loading stops. Nothing else changes. |
| FormState.OnModelSelected | src/app/page.tsx:41-43 | The selection becomes the picked id. Schema loading starts only when the selection changes to a non-empty id. Re-picking the same id changes nothing. Schema, inputs and error are untouched. |
| DefaultInput.DefaultValues | src/app/page.tsx:54-57 | The inline copy of the defaults computation: a key is present iff its property declares a default, with that default as the value. |
| FormState.OnSchemaLoaded | src/app/page.tsx:51-59 | The schema is replaced. The inputs become exactly the new schema's declared defaults. Schema loading stops. `error` is kept. Nothing else changes. |
| FormState.SchemaLoadDiscardsPreviousValues | src/app/page.tsx:54-58 | The inputs after a schema load do not depend on the inputs before it: values are rebuilt, not merged. |
| FormState.OnSchemaMissing | src/app/page.tsx:47-50 | `error` becomes "Schema not found.". Schema, inputs and `loadingSchema` are left as they were, so the flag stays true unless another schema reply already cleared it. |
| FormState.OnSchemaFailed | src/app/page.tsx:61-64 | `error` becomes "Error fetching schema." and schema loading stops. Schema and inputs are unchanged. |
| FormState.OnFieldEdited | src/app/page.tsx:168 | Field `k` becomes the typed string. Every other input and every other state field is unchanged. |
| FormState.HandleSubmit | src/app/page.tsx:68-93 | An invalid form only gets "Please fill in all required fields." and sends nothing. A valid form starts loading, clears `error`, keeps the previous image and sends the request body. |
| FormState.EnabledSubmitSends | src/app/page.tsx:181-183 | A submit through the enabled button always takes the valid branch and sends the request body. |
| FormState.OnImageLoaded | src/app/page.tsx:84-89 | The response text becomes the image and loading stops. `error` is kept. |
| FormState.OnImageFailed | src/app/page.tsx:86-89 | `error` becomes "Error generating image." and loading stops. The previous image stays. |
| Orchestration.Step | src/app/page.tsx:27-93 | An event applies exactly when it is enabled. A submit is enabled when the button is enabled and every rendered required input shows non-empty text. Events that report no error keep `error`. Selecting adds a schema fetch iff it starts one. A schema reply consumes its fetch, and a found schema replaces the displayed one whichever model is selected. |
| Orchestration.StepKeepsInvariant | src/app/page.tsx:27-100 | Every enabled event keeps the invariant: models loading iff its fetch is outstanding; at most one generation request outstanding, exactly while loading; inputs name only schema properties; the validation message never shows. |
| Orchestration.RunKeepsInvariant | src/app/page.tsx:27-100 | Any event sequence from a world with the invariant ends in a world with the invariant. |
| Orchestration.ReachableKeepsInvariant | src/app/page.tsx:181-183 | Every world reachable from mount keeps the invariant. So at most one submission is in flight, and "Please fill in all required fields." never shows: submits go through the enabled button only. |
| Orchestration.PickerWaitsForModels | src/app/page.tsx:130 | While the models fetch is outstanding, no model can be selected. |
| Orchestration.NoSecondSubmission | src/app/page.tsx:183 | While a generation request is outstanding, a submit cannot happen. |
| Orchestration.ErrorClearedOnlyByValidSubmit | src/app/page.tsx:77 | Any step that clears a present error is a submit of a valid form. |
| Orchestration.SuccessesKeepError | src/app/page.tsx:27-93 | Models loaded, model selected, field edited, schema found and image loaded all leave `error` unchanged. |
| Orchestration.ErrorAfterStep | src/app/page.tsx:27-93 | Each error-reporting event leaves its own message: "Failed to fetch models.", "Schema not found.", "Error fetching schema." or "Error generating image.". A submit clears the message. |
| Orchestration.LateSchemaIsApplied | src/app/page.tsx:46-59 | An outstanding schema fetch for a model other than the selected one is still applied when it returns. The schema and inputs then come from that model while the selection stays. |
| Orchestration.SwitchingLeavesBothFetches | src/app/page.tsx:41-45 | Loading two models and selecting `a` then `b` leaves both schema fetches outstanding, with `b` selected. |
| Orchestration.StaleSchemaIsApplied | src/app/page.tsx:41-66 | For any two distinct non-empty ids: select `a`, select `b`, then `a`'s schema arrives. It is applied while `b` is selected and `b`'s fetch is still outstanding. So "the schema belongs to the selected model" holds at mount but is not an invariant. |
| FormState.RequestBodyOfOneInput | src/app/page.tsx:82 | With a single input, the body is `model` plus that input. The input wins if it is itself named `model`. |
| Orchestration.HappyPathLoadsForm | src/app/page.tsx:27-59 | Models load, the model is selected and its schema (one required field, no default) arrives. The form then shows that schema with no values and no error. |
| Orchestration.HappyPathFillsForm | src/app/page.tsx:168 | Typing non-empty text into the required field leaves exactly that input. The submit then reaches `handleSubmit`. |
| Orchestration.HappyPathSubmits | src/app/page.tsx:68-82 | Submitting sends exactly `{model: id, field: text}` and starts loading with no error. |
| Orchestration.HappyPathShowsImage | src/app/page.tsx:84-89 | The returned text becomes the image. Loading has stopped, there is no error and nothing is in flight. |

## Left out

- Rendering and animation (src/app/page.tsx:111-233): presentation only. The displayed text of an input is modelled only as far as the browser's required check needs it: whether it is empty (`ShowsValue`).
- Orchestration.Enabled: the browser's other checks on `type="number"` inputs are not modelled. Non-numeric text displays as empty, including the text of a non-numeric default such as `true`, an object or `[1, 2]`, and a non-integer value fails the default step of 1. In those cases the model allows a submit that the browser refuses.
- Orchestration.Step: `Edit` accepts any text. A `type="number"` input only reports a number string or `""`, so the model also accepts edits that the page cannot produce.
- `handleDownload` (src/app/page.tsx:102-109): it only manipulates the DOM.
- The `fetch` calls, JSON parsing and URL building. They become event arguments. The schema URL interpolates the model id without escaping, and that is not modelled.
- Schema bodies that are truthy but not a schema are not representable. What happens depends on the body:
  - A body such as `{input: {properties: {}}}` with no `required` does not throw in the effect. The schema and inputs are set and `loadingSchema` becomes false (src/app/page.tsx:52-59). The page then throws during render, at `schema?.input.required.every` (src/app/page.tsx:98, called from src/app/page.tsx:183).
  - A body that does throw in the effect has already been stored by `setSchema` (src/app/page.tsx:52). "Error fetching schema." is set, and the next render throws at src/app/page.tsx:154.
- Falsy JSON bodies such as `false`, `0` or `""` take the "Schema not found." path like `null` does, and `Empty` stands for all of them. An empty HTTP body makes `res.json()` reject, which is the `FetchFailed` path.
- A models body that is not an array: it is cast without checks in the code, and the model takes the list as given.
- Inherited object members: `inputValues[field]` in the code also finds `Object.prototype` members (`constructor`, `toString`), which would count as filled. The model treats only own keys as present.
- The key `__proto__`: `acc[key] = prop.default` (src/utils/defaultInput.util.ts:3, src/app/page.tsx:55) with that key calls the prototype setter instead of creating an own key. So that name never appears in the code's defaults, while `DefaultValues` includes it.
- The order of keys in the input record and in the request body: JSON key order changes nothing the page observes.
- `minimum` and `maximum`: they are carried in `SchemaProperty` but never enforced by the code.
- src/hooks/, src/app/layout.tsx and src/providers/tanstack.provider.tsx: page.tsx does not use the hooks, and the rest is framework wiring.
- React's development double-run of effects: the models fetch is modelled as happening once at mount.

=== FILE: ai_types.dfy ===
/** The shared data definitions: a selectable model and the input schema it declares. */
module AiTypes {
  import opened Options
  import opened Json

  /** A selectable generation backend; `id` is what the model picker stores. */
  datatype Model = Model(id: string, name: string)

  /** One form field of a schema. `typeName` is the source's `type` member. */
  datatype SchemaProperty = SchemaProperty(
    typeName: string,
    description: string,
    default: Option<Value>,
    minimum: Option<real>,
    maximum: Option<real>)
  {
    /** True when the property declares a `default` (the source's `prop.default !== undefined`). */
    predicate HasDefault() {
      default.Some?
    }
  }

  /** The `input` member of a schema: the fields by name, and the names that must be filled. */
  datatype SchemaInput = SchemaInput(properties: map<string, SchemaProperty>, required: seq<string>)

  datatype Schema = Schema(input: SchemaInput)

  /** The values the model picker offers: one per listed model. */
  function ModelIds(models: seq<Model>): set<string> {
    set i | 0 <= i < |models| :: models[i].id
  }
}

=== FILE: default_input.dfy ===
/** Deriving a form's starting values from the defaults its schema declares. */
module DefaultInput {
  import opened Options
  import opened Json
  import opened AiTypes

  /** The declared defaults of a property map: each property that has a `default`, mapped to that default. */
  function DefaultValues(properties: map<string, SchemaProperty>): (defaults: map<string, Value>)
    ensures forall k :: k in defaults <==> k in properties && properties[k].HasDefault()
    ensures forall k :: k in defaults ==> properties[k].default == Some(defaults[k])
  {
    map k | k in properties && properties[k].HasDefault() :: properties[k].default.value
  }

  /**
   * The reduce over the property entries: start from an empty record and copy in the default of every
   * property that declares one. The entries are visited in an arbitrary order; the result does not
   * depend on it.
   */
  method GetDefaultInputValues(properties: map<string, SchemaProperty>) returns (acc: map<string, Value>)
    ensures forall k :: k in acc <==> k in properties && properties[k].HasDefault()
    ensures forall k :: k in acc ==> k in properties && properties[k].default == Some(acc[k])
    ensures acc.Keys <= properties.Keys
    ensures acc == DefaultValues(properties)
  {
    acc := map[];
    var remaining := properties.Keys;
    while remaining != {}
      invariant remaining <= properties.Keys
      invariant forall k :: k in acc <==> k in properties && k !in remaining && properties[k].HasDefault()
      invariant forall k :: k in acc ==> k in properties && properties[k].default == Some(acc[k])
      decreases remaining
    {
      var key :| key in remaining;
      var prop := properties[key];
      if prop.HasDefault() {
        acc := acc[key := prop.default.value];
      }
      remaining := remaining - {key};
    }
  }

  /** A schema whose properties declare no default (in particular, one with no properties) starts empty. */
  lemma NoDeclaredDefaultsGiveEmpty(properties: map<string, SchemaProperty>)
    requires forall k :: k in properties ==> !properties[k].HasDefault()
    ensures DefaultValues(properties) == map[]
  {
  }

  /** Adding (or replacing) a property that has no default only drops that name from the defaults. */
  lemma PropertyWithoutDefaultAddsNothing(properties: map<string, SchemaProperty>, name: string, prop: SchemaProperty)
    requires !prop.HasDefault()
    ensures DefaultValues(properties[name := prop]) == DefaultValues(properties) - {name}
    ensures name !in properties ==> DefaultValues(properties[name := prop]) == DefaultValues(properties)
  {
  }

  /** Only the declared defaults matter: types, descriptions and bounds do not influence the result. */
  lemma DefaultsIgnoreOtherMetadata(p1: map<string, SchemaProperty>, p2: map<string, SchemaProperty>)
    requires p1.Keys == p2.Keys
    requires forall k :: k in p1 ==> p1[k].default == p2[k].default
    ensures DefaultValues(p1) == DefaultValues(p2)
  {
  }

  /** `{a: {default: 5}, b: {}}` starts as `{a: 5}`: `b` is absent, not null. */
  lemma DefaultsExample()
    ensures DefaultValues(map[
      "a" := SchemaProperty("number", "", Some(Num(5.0)), None, None),
      "b" := SchemaProperty("number", "", None, None, None)]) == map["a" := Num(5.0)]
  {
  }
}

=== FILE: form_state.dfy ===
/**
 * The state record of the PixelMind page and one pure transition per event that changes it.
 * Network calls are not performed here: their outcomes arrive as the arguments of the
 * `On...` transitions, and `HandleSubmit` returns the request it would send.
 */
module FormState {
  import opened Options
  import opened Json
  import opened AiTypes
  import DefaultInput

  const ModelsFetchError := "Failed to fetch models."
  const SchemaNotFoundError := "Schema not found."
  const SchemaFetchError := "Error fetching schema."
  const RequiredFieldsError := "Please fill in all required fields."
  const GenerationError := "Error generating image."

  /** The page's state cells, one field per cell. */
  datatype State = State(
    models: seq<Model>,
    selectedModel: string,
    schema: Option<Schema>,
    inputValues: map<string, Value>,
    isLoading: bool,
    generatedImage: Option<string>,
    loadingModels: bool,
    loadingSchema: bool,
    error: Option<string>)

  /** The state the page mounts with: the models fetch is already under way. */
  const Initial := State([], "", None, map[], false, None, true, false, None)

  // ---------------------------------------------------------------------------
  // Derived values

  /** A required field counts as filled when it has a value other than the empty string; `null` and `0` count. */
  predicate Filled(values: map<string, Value>, field: string) {
    field in values && values[field] != Str("")
  }

  /** The `every` over the required names, evaluated left to right. */
  function AllFilled(values: map<string, Value>, required: seq<string>): (r: bool)
    ensures r <==> forall i :: 0 <= i < |required| ==> Filled(values, required[i])
  {
    |required| == 0 || (Filled(values, required[0]) && AllFilled(values, required[1..]))
  }

  /** Whether the form may be submitted: a model is selected, a schema is loaded, and every required field is filled. */
  function IsFormValid(s: State): (valid: bool)
    ensures s.selectedModel == "" ==> !valid
    ensures s.schema.None? ==> !valid
    ensures valid <==>
      && s.selectedModel != ""
      && s.schema.Some?
      && forall field :: field in s.schema.value.input.required ==> Filled(s.inputValues, field)
  {
    s.selectedModel != "" && s.schema.Some? && AllFilled(s.inputValues, s.schema.value.input.required)
  }

  /** The generate button is enabled only when no submission is running and the form is valid. */
  function SubmitEnabled(s: State): (enabled: bool)
    ensures enabled <==>
      && !s.isLoading
      && s.selectedModel != ""
      && s.schema.Some?
      && forall field :: field in s.schema.value.input.required ==> Filled(s.inputValues, field)
  {
    !s.isLoading && IsFormValid(s)
  }

  /**
   * The input for `field` displays `inputValues[field] || ""` as a string. That text is empty when
   * the value is absent or falsy, and when it is an array that joins to "" (`[]`, `[null]`, `[""]`,
   * `[[]]`); every other value shows something.
   */
  predicate ShowsValue(values: map<string, Value>, field: string) {
    field in values && Truthy(values[field]) && !JoinedTextIsEmpty(values[field])
  }

  /**
   * The browser's own check of the inputs marked `required`: every required name that is also a
   * property (and so has an input on the page) must show something, or the form does not submit.
   */
  predicate RequiredInputsShowValues(s: State) {
    s.schema.Some? ==>
      forall field :: field in s.schema.value.input.required && field in s.schema.value.input.properties ==>
        ShowsValue(s.inputValues, field)
  }

  /** A click on the generate button reaches `handleSubmit`: the button is enabled and the browser's required check passes. */
  function SubmitReachesHandler(s: State): (fires: bool)
    ensures fires ==> !s.isLoading && IsFormValid(s)
    ensures fires ==> forall field ::
      field in s.schema.value.input.required && field in s.schema.value.input.properties ==> ShowsValue(s.inputValues, field)
  {
    SubmitEnabled(s) && RequiredInputsShowValues(s)
  }

  /** Values that fill a field for `isFormValid` but show as empty: `null`, `false`, `0` and arrays that join to "". */
  predicate BlankWhenShown(v: Value) {
    v == Null || v == Bool(false) || v == Num(0.0) || (v.Arr? && JoinedTextIsEmpty(v))
  }

  /** A value other than `""` shows something in its input iff it is not one of the blank-when-shown values. */
  lemma FilledValueShowsUnlessBlank(values: map<string, Value>, field: string)
    requires Filled(values, field)
    ensures ShowsValue(values, field) <==> !BlankWhenShown(values[field])
  {
  }

  /**
   * A required field holding `null`, `false` or `0` (a declared default, say) counts as filled for
   * `isFormValid`, yet its input shows nothing, so the browser keeps the form from submitting.
   */
  lemma FalsyRequiredValueBlocksSubmit(s: State, field: string)
    requires s.schema.Some?
    requires field in s.schema.value.input.required && field in s.schema.value.input.properties
    requires field in s.inputValues && !Truthy(s.inputValues[field])
    ensures s.inputValues[field] != Str("") ==> Filled(s.inputValues, field)
    ensures !SubmitReachesHandler(s)
  {
  }

  /** A required field holding an array that joins to "", such as a declared default `[]`, is filled yet blocks the submit. */
  lemma BlankArrayRequiredValueBlocksSubmit(s: State, field: string)
    requires s.schema.Some?
    requires field in s.schema.value.input.required && field in s.schema.value.input.properties
    requires field in s.inputValues && s.inputValues[field].Arr? && JoinedTextIsEmpty(s.inputValues[field])
    ensures Filled(s.inputValues, field)
    ensures !SubmitReachesHandler(s)
  {
  }

  /** When no input holds a blank-when-shown value, an enabled button always reaches `handleSubmit`. */
  lemma EnabledButtonReachesHandler(s: State)
    requires SubmitEnabled(s)
    requires forall field :: field in s.inputValues ==> !BlankWhenShown(s.inputValues[field])
    ensures SubmitReachesHandler(s)
  {
    forall field | field in s.schema.value.input.required && field in s.schema.value.input.properties
      ensures ShowsValue(s.inputValues, field)
    {
      assert Filled(s.inputValues, field);
      FilledValueShowsUnlessBlank(s.inputValues, field);
    }
  }

  /** The body of the generation request: the selected model, then every input spread over it. */
  function RequestBody(s: State): (body: map<string, Value>)
    ensures body.Keys == {"model"} + s.inputValues.Keys
    ensures forall k :: k in s.inputValues ==> body[k] == s.inputValues[k]
    ensures "model" !in s.inputValues ==> body["model"] == Str(s.selectedModel)
  {
    map["model" := Str(s.selectedModel)] + s.inputValues
  }

  /** With one input, the body is the model followed by that input, which replaces `model` if so named. */
  lemma RequestBodyOfOneInput(s: State, field: string, v: Value)
    requires s.inputValues == map[field := v]
    ensures RequestBody(s) == map["model" := Str(s.selectedModel), field := v]
  {
  }

  // ---------------------------------------------------------------------------
  // Models fetch

  /** The model list arrived: store it and stop loading. */
  function OnModelsLoaded(s: State, data: seq<Model>): (r: State)
    ensures r.models == data && !r.loadingModels
    ensures r.error == s.error
    ensures r == s.(models := r.models, loadingModels := r.loadingModels)
  {
    s.(models := data, loadingModels := false)
  }

  /** The model list could not be fetched: report it and stop loading; the list stays as it was. */
  function OnModelsFailed(s: State): (r: State)
    ensures r.error == Some(ModelsFetchError) && !r.loadingModels
    ensures r.models == s.models
    ensures r == s.(error := r.error, loadingModels := r.loadingModels)
  {
    s.(error := Some(ModelsFetchError), loadingModels := false)
  }

  // ---------------------------------------------------------------------------
  // Model selection and schema fetch

  /**
   * Whether choosing `id` runs the schema effect: the selection must actually change (the effect
   * depends on `selectedModel`) and the new selection must be non-empty.
   */
  predicate StartsSchemaFetch(s: State, id: string) {
    id != s.selectedModel && id != ""
  }

  /**
   * The picker reported `id`. The selection changes; if that starts a schema fetch the schema is
   * marked as loading. The old schema and inputs stay until a response arrives.
   */
  function OnModelSelected(s: State, id: string): (r: State)
    ensures r.selectedModel == id
    ensures r.loadingSchema == (s.loadingSchema || StartsSchemaFetch(s, id))
    ensures id == s.selectedModel ==> r == s
    ensures r.schema == s.schema && r.inputValues == s.inputValues && r.error == s.error
    ensures r == s.(selectedModel := r.selectedModel, loadingSchema := r.loadingSchema)
  {
    if id == s.selectedModel then s
    else s.(selectedModel := id, loadingSchema := if id != "" then true else s.loadingSchema)
  }

  /**
   * A schema arrived (for whichever model it was requested). It replaces the current schema and the
   * inputs are rebuilt from its declared defaults alone; the error message is left as it was.
   */
  function OnSchemaLoaded(s: State, schema: Schema): (r: State)
    ensures r.schema == Some(schema)
    ensures forall k :: k in r.inputValues <==> k in schema.input.properties && schema.input.properties[k].HasDefault()
    ensures forall k :: k in r.inputValues ==> schema.input.properties[k].default == Some(r.inputValues[k])
    ensures !r.loadingSchema
    ensures r.error == s.error
    ensures r == s.(schema := r.schema, inputValues := r.inputValues, loadingSchema := r.loadingSchema)
  {
    s.(schema := Some(schema),
       inputValues := DefaultInput.DefaultValues(schema.input.properties),
       loadingSchema := false)
  }

  /** The schema response was empty: report it. The schema is still marked as loading. */
  function OnSchemaMissing(s: State): (r: State)
    ensures r.error == Some(SchemaNotFoundError)
    ensures r.schema == s.schema && r.inputValues == s.inputValues && r.loadingSchema == s.loadingSchema
    ensures r == s.(error := r.error)
  {
    s.(error := Some(SchemaNotFoundError))
  }

  /** The schema fetch failed: report it and stop loading; schema and inputs stay as they were. */
  function OnSchemaFailed(s: State): (r: State)
    ensures r.error == Some(SchemaFetchError) && !r.loadingSchema
    ensures r.schema == s.schema && r.inputValues == s.inputValues
    ensures r == s.(error := r.error, loadingSchema := r.loadingSchema)
  {
    s.(error := Some(SchemaFetchError), loadingSchema := false)
  }

  // ---------------------------------------------------------------------------
  // Editing

  /** The user typed `text` into field `key`: that one input becomes the typed string. */
  function OnFieldEdited(s: State, key: string, text: string): (r: State)
    ensures key in r.inputValues && r.inputValues[key] == Str(text)
    ensures r.inputValues.Keys == s.inputValues.Keys + {key}
    ensures forall k :: k in s.inputValues && k != key ==> r.inputValues[k] == s.inputValues[k]
    ensures r == s.(inputValues := r.inputValues)
  {
    s.(inputValues := s.inputValues[key := Str(text)])
  }

  // ---------------------------------------------------------------------------
  // Generation

  /** What a submit does to the state, and the request it sends, if any. */
  datatype Submission = Submission(next: State, request: Option<map<string, Value>>)

  /**
   * The form was submitted. An invalid form only gets the validation message; a valid one starts
   * loading, clears the error (but not the previous image) and sends the request body.
   */
  function HandleSubmit(s: State): (r: Submission)
    ensures !IsFormValid(s) ==>
      && r.request.None?
      && r.next.error == Some(RequiredFieldsError)
      && r.next == s.(error := r.next.error)
    ensures IsFormValid(s) ==>
      && r.request == Some(RequestBody(s))
      && r.next.isLoading
      && r.next.error.None?
      && r.next.generatedImage == s.generatedImage
      && r.next == s.(isLoading := r.next.isLoading, error := r.next.error)
  {
    if !IsFormValid(s) then
      Submission(s.(error := Some(RequiredFieldsError)), None)
    else
      Submission(s.(isLoading := true, error := None), Some(RequestBody(s)))
  }

  /** Through the enabled button a submit always takes the valid branch and sends a request. */
  lemma EnabledSubmitSends(s: State)
    requires SubmitEnabled(s)
    ensures HandleSubmit(s).request == Some(RequestBody(s))
    ensures HandleSubmit(s).next.isLoading
  {
  }

  /** The generation request returned a body: its text becomes the image reference and loading stops. */
  function OnImageLoaded(s: State, text: string): (r: State)
    ensures r.generatedImage == Some(text) && !r.isLoading
    ensures r.error == s.error
    ensures r == s.(generatedImage := r.generatedImage, isLoading := r.isLoading)
  {
    s.(generatedImage := Some(text), isLoading := false)
  }

  /** The generation request failed: report it and stop loading; the previous image stays. */
  function OnImageFailed(s: State): (r: State)
    ensures r.error == Some(GenerationError) && !r.isLoading
    ensures r.generatedImage == s.generatedImage
    ensures r == s.(error := r.error, isLoading := r.isLoading)
  {
    s.(error := Some(GenerationError), isLoading := false)
  }

  // ---------------------------------------------------------------------------
  // Properties relating several calls

  /** Schema loading rebuilds the inputs: what was typed before has no influence on the result. */
  lemma SchemaLoadDiscardsPreviousValues(s1: State, s2: State, schema: Schema)
    ensures OnSchemaLoaded(s1, schema).inputValues == OnSchemaLoaded(s2, schema).inputValues
    ensures OnSchemaLoaded(s1, schema).inputValues == DefaultInput.DefaultValues(schema.input.properties)
  {
  }

  /** `null`, `0` and `false` fill a required field; only absence and the empty string do not. */
  lemma FilledByAnyNonEmptyValue(values: map<string, Value>, field: string, v: Value)
    ensures Filled(values[field := v], field) <==> v != Str("")
    ensures Filled(values[field := Null], field) && Filled(values[field := Num(0.0)], field)
  {
  }

  /** Typing a non-empty text into a required field can only help validity; other fields are not touched. */
  lemma EditingKeepsValidity(s: State, key: string, text: string)
    requires IsFormValid(s)
    requires text != ""
    ensures IsFormValid(OnFieldEdited(s, key, text))
  {
  }

  /** Clearing a required field makes the form invalid. */
  lemma ClearingRequiredFieldInvalidates(s: State, key: string)
    requires s.schema.Some? && key in s.schema.value.input.required
    ensures !IsFormValid(OnFieldEdited(s, key, ""))
  {
  }

  /** With required `[a, b]` and only `a` filled the form is invalid; filling `b` makes it valid. */
  lemma RequiredPairExample(s: State)
    requires s.selectedModel != ""
    requires s.schema.Some? && s.schema.value.input.required == ["a", "b"]
    requires s.inputValues == map["a" := Str("x")]
    ensures !IsFormValid(s)
    ensures IsFormValid(OnFieldEdited(s, "b", "y"))
  {
    assert !Filled(s.inputValues, "b");
    var t := OnFieldEdited(s, "b", "y");
    assert Filled(t.inputValues, "a") && Filled(t.inputValues, "b");
  }
}

=== FILE: json.dfy ===
/** The dynamically typed values (`any`) carried by schema defaults, form inputs and request bodies. */
module Json {

  /** A JSON value, tagged by its kind. Absence (`undefined`) is not a value: it is a missing map key. */
  datatype Value =
    | Null
    | Bool(b: bool)
    | Num(n: real)
    | Str(s: string)
    | Arr(elems: seq<Value>)
    | Obj(fields: map<string, Value>)

  /**
   * JavaScript truthiness of a value: `null`, `false`, `0` and `""` are falsy, everything else is
   * truthy (`NaN` is not representable here).
   */
  predicate Truthy(v: Value) {
    match v
    case Null => false
    case Bool(b) => b
    case Num(n) => n != 0.0
    case Str(s) => s != ""
    case Arr(_) => true
    case Obj(_) => true
  }

  /**
   * Whether the text a value contributes to `Array.prototype.join(",")` is empty. Inside a join
   * `null` gives "" and every other value its string conversion, so `false` gives "false", `0`
   * gives "0" and an object "[object Object]". An array's text is the comma join of its
   * elements, which is empty only with no element or a single element whose own text is empty.
   */
  predicate JoinedTextIsEmpty(v: Value) {
    match v
    case Null => true
    case Bool(_) => false
    case Num(_) => false
    case Str(s) => s == ""
    case Arr(elems) => |elems| == 0 || (|elems| == 1 && JoinedTextIsEmpty(elems[0]))
    case Obj(_) => false
  }

  /** `[]`, `[null]`, `[""]` and `[[]]` join to "", while `[0]` and `[false]` do not. */
  lemma BlankArrays()
    ensures JoinedTextIsEmpty(Arr([]))
    ensures JoinedTextIsEmpty(Arr([Null])) && JoinedTextIsEmpty(Arr([Str("")]))
    ensures JoinedTextIsEmpty(Arr([Arr([])])) && JoinedTextIsEmpty(Arr([Arr([Null])]))
    ensures !JoinedTextIsEmpty(Arr([Num(0.0)])) && !JoinedTextIsEmpty(Arr([Bool(false)]))
  {
  }

  /** Two or more elements always join with a comma, whatever the elements are. */
  lemma SeveralElementsJoinToText(elems: seq<Value>)
    requires |elems| >= 2
    ensures !JoinedTextIsEmpty(Arr(elems))
  {
  }
}

=== FILE: options.dfy ===
/** Optional values: the model of TypeScript's `T | null` and of optional (`?`) members. */
module Options {

  datatype Option<+T> = None | Some(value: T)
}

=== FILE: orchestration.dfy ===
/**
 * The page as an event-driven system: the state record together with the requests that are
 * in flight. Each user action or network response is an event; `Step` applies it when it can
 * happen. Responses may arrive in any order, and a schema response is applied whatever model is
 * selected by then, since the page keeps no request token.
 */
module Orchestration {
  import opened Options
  import opened Json
  import opened AiTypes
  import opened FormState

  /** How a schema fetch ends: a schema, an empty (`null`) body, or a network or parse failure. */
  datatype SchemaReply = Found(schema: Schema) | Empty | FetchFailed

  /** How a generation request ends: a response body (of any status), or a network failure. */
  datatype ImageReply = Text(body: string) | NetworkFailure

  datatype Event =
    | ModelsArrived(data: seq<Model>)
    | ModelsFailed
    | Select(id: string)
    | SchemaArrived(forModel: string, schemaReply: SchemaReply)
    | Edit(key: string, text: string)
    | Submit
    | ImageArrived(imageReply: ImageReply)

  /**
   * The page state plus the outstanding requests: the models fetch, the schema fetches (by the model
   * they were sent for) and the generation requests (by body, oldest first). `schemaOrigin` records
   * which model's fetch produced the schema on display; the page itself does not keep it.
   */
  datatype World = World(
    state: State,
    modelsInFlight: bool,
    schemaInFlight: multiset<string>,
    imageInFlight: seq<map<string, Value>>,
    schemaOrigin: Option<string>)

  /** Just after mount: initial state, models fetch under way. */
  const Start := World(Initial, true, multiset{}, [], None)

  /** When an event can happen: a response needs a matching request, a user action needs its control enabled. */
  predicate Enabled(w: World, e: Event) {
    match e
    case ModelsArrived(_) => w.modelsInFlight
    case ModelsFailed => w.modelsInFlight
    case Select(id) => !w.state.loadingModels && id in ModelIds(w.state.models)
    case SchemaArrived(m, _) => m in w.schemaInFlight
    case Edit(key, _) => w.state.schema.Some? && key in w.state.schema.value.input.properties
    case Submit => SubmitReachesHandler(w.state)
    case ImageArrived(_) => |w.imageInFlight| > 0
  }

  /** Events that overwrite the error message. */
  predicate SetsError(e: Event) {
    || e.ModelsFailed?
    || (e.SchemaArrived? && !e.schemaReply.Found?)
    || e.Submit?
    || (e.ImageArrived? && e.imageReply.NetworkFailure?)
  }

  /** Apply one event, or `None` when it cannot happen in `w`. */
  function Step(w: World, e: Event): (r: Option<World>)
    ensures r.Some? <==> Enabled(w, e)
    ensures r.Some? && !SetsError(e) ==> r.value.state.error == w.state.error
    ensures r.Some? && e.Select? ==>
      r.value.schemaInFlight == w.schemaInFlight + (if StartsSchemaFetch(w.state, e.id) then multiset{e.id} else multiset{})
    ensures r.Some? && e.SchemaArrived? ==> r.value.schemaInFlight == w.schemaInFlight - multiset{e.forModel}
    ensures r.Some? && e.SchemaArrived? && e.schemaReply.Found? ==>
      r.value.state.schema == Some(e.schemaReply.schema) && r.value.schemaOrigin == Some(e.forModel)
  {
    match e
    case ModelsArrived(data) =>
      if w.modelsInFlight then Some(w.(state := OnModelsLoaded(w.state, data), modelsInFlight := false)) else None
    case ModelsFailed =>
      if w.modelsInFlight then Some(w.(state := OnModelsFailed(w.state), modelsInFlight := false)) else None
    case Select(id) =>
      if !w.state.loadingModels && id in ModelIds(w.state.models) then
        var fetched := if StartsSchemaFetch(w.state, id) then multiset{id} else multiset{};
        Some(w.(state := OnModelSelected(w.state, id), schemaInFlight := w.schemaInFlight + fetched))
      else None
    case SchemaArrived(m, reply) =>
      if m in w.schemaInFlight then
        var rest := w.schemaInFlight - multiset{m};
        match reply
        case Found(schema) =>
          Some(w.(state := OnSchemaLoaded(w.state, schema), schemaInFlight := rest, schemaOrigin := Some(m)))
        case Empty => Some(w.(state := OnSchemaMissing(w.state), schemaInFlight := rest))
        case FetchFailed => Some(w.(state := OnSchemaFailed(w.state), schemaInFlight := rest))
      else None
    case Edit(key, text) =>
      if w.state.schema.Some? && key in w.state.schema.value.input.properties then
        Some(w.(state := OnFieldEdited(w.state, key, text)))
      else None
    case Submit =>
      if SubmitReachesHandler(w.state) then
        var sub := HandleSubmit(w.state);
        var sent := if sub.request.Some? then [sub.request.value] else [];
        Some(w.(state := sub.next, imageInFlight := w.imageInFlight + sent))
      else None
    case ImageArrived(reply) =>
      if |w.imageInFlight| > 0 then
        var next := match reply
          case Text(body) => OnImageLoaded(w.state, body)
          case NetworkFailure => OnImageFailed(w.state);
        Some(w.(state := next, imageInFlight := w.imageInFlight[1..]))
      else None
  }

  /** Apply a sequence of events in order; `None` as soon as one cannot happen. */
  function Run(w: World, events: seq<Event>): Option<World>
    decreases |events|
  {
    if |events| == 0 then Some(w)
    else match Step(w, events[0])
      case None => None
      case Some(w') => Run(w', events[1..])
  }

  /** The facts every world reachable from `Start` keeps. */
  predicate Invariant(w: World) {
    // the models fetch is outstanding exactly while the page says it is loading models
    && w.modelsInFlight == w.state.loadingModels
    // at most one generation request is outstanding, exactly while the page is loading
    && |w.imageInFlight| <= 1
    && (|w.imageInFlight| == 1 <==> w.state.isLoading)
    // schema fetches are only sent for non-empty selections
    && (forall m :: m in w.schemaInFlight ==> m != "")
    // the inputs only ever name properties of the schema on display
    && (w.state.schema.Some? ==> w.state.inputValues.Keys <= w.state.schema.value.input.properties.Keys)
    && (w.state.schema.Some? <==> w.schemaOrigin.Some?)
    // submission is only possible through the enabled button, so the validation message never shows
    && w.state.error != Some(RequiredFieldsError)
  }

  /** The models responses keep the invariant: they only settle the models fetch. */
  lemma ModelsReplyKeepsInvariant(w: World, e: Event)
    requires Invariant(w) && Enabled(w, e)
    requires e.ModelsArrived? || e.ModelsFailed?
    ensures Invariant(Step(w, e).value)
  {
  }

  /** Picking a model keeps the invariant: a fetch is only added for a non-empty id. */
  lemma SelectKeepsInvariant(w: World, id: string)
    requires Invariant(w) && Enabled(w, Select(id))
    ensures Invariant(Step(w, Select(id)).value)
  {
    var w' := Step(w, Select(id)).value;
    assert forall x :: x in w'.schemaInFlight ==> x in w.schemaInFlight || (x == id && id != "");
  }

  /** A schema reply keeps the invariant: a found schema brings inputs drawn from its own properties. */
  lemma SchemaReplyKeepsInvariant(w: World, m: string, reply: SchemaReply)
    requires Invariant(w) && Enabled(w, SchemaArrived(m, reply))
    ensures Invariant(Step(w, SchemaArrived(m, reply)).value)
  {
    var w' := Step(w, SchemaArrived(m, reply)).value;
    assert forall x :: x in w'.schemaInFlight ==> x in w.schemaInFlight;
  }

  /** An edit keeps the invariant: it only names a property of the schema on display. */
  lemma EditKeepsInvariant(w: World, key: string, text: string)
    requires Invariant(w) && Enabled(w, Edit(key, text))
    ensures Invariant(Step(w, Edit(key, text)).value)
  {
  }

  /** A submit keeps the invariant: it is enabled only when nothing is loading and the form is valid. */
  lemma SubmitKeepsInvariant(w: World)
    requires Invariant(w) && Enabled(w, Submit)
    ensures Invariant(Step(w, Submit).value)
  {
  }

  /** An image reply keeps the invariant: it settles the one outstanding request. */
  lemma ImageReplyKeepsInvariant(w: World, reply: ImageReply)
    requires Invariant(w) && Enabled(w, ImageArrived(reply))
    ensures Invariant(Step(w, ImageArrived(reply)).value)
  {
  }

  /** Every event that can happen keeps the invariant. */
  lemma StepKeepsInvariant(w: World, e: Event)
    requires Invariant(w)
    requires Enabled(w, e)
    ensures Invariant(Step(w, e).value)
  {
    match e
    case ModelsArrived(_) => ModelsReplyKeepsInvariant(w, e);
    case ModelsFailed => ModelsReplyKeepsInvariant(w, e);
    case Select(id) => SelectKeepsInvariant(w, id);
    case SchemaArrived(m, reply) => SchemaReplyKeepsInvariant(w, m, reply);
    case Edit(key, text) => EditKeepsInvariant(w, key, text);
    case Submit => SubmitKeepsInvariant(w);
    case ImageArrived(reply) => ImageReplyKeepsInvariant(w, reply);
  }

  /** Running any sequence of events from a world that keeps the invariant ends in one that keeps it. */
  lemma {:induction false} RunKeepsInvariant(w: World, events: seq<Event>)
    requires Invariant(w)
    ensures Run(w, events).Some? ==> Invariant(Run(w, events).value)
    decreases |events|
  {
    if |events| > 0 && Step(w, events[0]).Some? {
      StepKeepsInvariant(w, events[0]);
      RunKeepsInvariant(Step(w, events[0]).value, events[1..]);
    }
  }

  /** Every reachable world keeps the invariant; in particular at most one submission is in flight. */
  lemma ReachableKeepsInvariant(events: seq<Event>)
    ensures Run(Start, events).Some? ==> Invariant(Run(Start, events).value)
    ensures Run(Start, events).Some? ==> |Run(Start, events).value.imageInFlight| <= 1
    ensures Run(Start, events).Some? ==> Run(Start, events).value.state.error != Some(RequiredFieldsError)
  {
    RunKeepsInvariant(Start, events);
  }

  /** While the models fetch is outstanding the picker is disabled, so no model can be selected. */
  lemma PickerWaitsForModels(w: World, id: string)
    requires Invariant(w)
    requires w.modelsInFlight
    ensures Step(w, Select(id)).None?
  {
  }

  /** While a submission is running, a second submit cannot happen. */
  lemma NoSecondSubmission(w: World)
    requires Invariant(w)
    requires |w.imageInFlight| > 0
    ensures Step(w, Submit).None?
  {
  }

  /** The error message is cleared by nothing but a submit of a valid form. */
  lemma ErrorClearedOnlyByValidSubmit(w: World, e: Event)
    requires Step(w, e).Some?
    requires w.state.error.Some? && Step(w, e).value.state.error.None?
    ensures e == Submit && IsFormValid(w.state)
  {
  }

  /** The message each error-reporting event leaves; a submit, being enabled only for a valid form, clears it. */
  lemma ErrorAfterStep(w: World, e: Event)
    requires Step(w, e).Some?
    requires SetsError(e)
    ensures var error := Step(w, e).value.state.error;
      && (e.ModelsFailed? ==> error == Some(ModelsFetchError))
      && (e.SchemaArrived? && e.schemaReply.Empty? ==> error == Some(SchemaNotFoundError))
      && (e.SchemaArrived? && e.schemaReply.FetchFailed? ==> error == Some(SchemaFetchError))
      && (e.Submit? ==> error.None?)
      && (e.ImageArrived? ==> error == Some(GenerationError))
  {
  }

  /** The outcomes that do not report an error leave the message as it was, whatever it was. */
  lemma SuccessesKeepError(w: World, e: Event)
    requires Step(w, e).Some?
    requires e.ModelsArrived? || e.Select? || e.Edit? || (e.SchemaArrived? && e.schemaReply.Found?) || (e.ImageArrived? && e.imageReply.Text?)
    ensures Step(w, e).value.state.error == w.state.error
  {
  }

  /** Running `events` and then `e` is running `events + [e]`. */
  lemma {:induction false} RunSnoc(w: World, events: seq<Event>, e: Event)
    requires Run(w, events).Some?
    requires Step(Run(w, events).value, e).Some?
    ensures Run(w, events + [e]) == Step(Run(w, events).value, e)
    decreases |events|
  {
    if |events| == 0 {
      assert events + [e] == [e];
    } else {
      assert (events + [e])[0] == events[0];
      assert (events + [e])[1..] == events[1..] + [e];
      RunSnoc(Step(w, events[0]).value, events[1..], e);
    }
  }

  /** A run that passes through `worlds`, one event at a time, ends in the last of them. */
  lemma {:induction false} RunOfSteps(events: seq<Event>, worlds: seq<World>)
    requires |worlds| == |events| + 1
    requires forall i :: 0 <= i < |events| ==> Step(worlds[i], events[i]) == Some(worlds[i + 1])
    ensures Run(worlds[0], events) == Some(worlds[|events|])
    decreases |events|
  {
    if |events| > 0 {
      RunOfSteps(events[1..], worlds[1..]);
    }
  }

  // The effect of each kind of event on the world, one lemma apiece, for the traces below.

  lemma ModelsArrivedStep(w: World, data: seq<Model>)
    requires w.modelsInFlight
    ensures Step(w, ModelsArrived(data)) == Some(w.(state := OnModelsLoaded(w.state, data), modelsInFlight := false))
  {
  }

  lemma SelectStep(w: World, id: string)
    requires !w.state.loadingModels && id in ModelIds(w.state.models) && StartsSchemaFetch(w.state, id)
    ensures Step(w, Select(id)) == Some(w.(state := OnModelSelected(w.state, id), schemaInFlight := w.schemaInFlight + multiset{id}))
  {
  }

  lemma SchemaFoundStep(w: World, m: string, schema: Schema)
    requires m in w.schemaInFlight
    ensures Step(w, SchemaArrived(m, Found(schema))) ==
      Some(w.(state := OnSchemaLoaded(w.state, schema), schemaInFlight := w.schemaInFlight - multiset{m}, schemaOrigin := Some(m)))
  {
  }

  lemma EditStep(w: World, key: string, text: string)
    requires w.state.schema.Some? && key in w.state.schema.value.input.properties
    ensures Step(w, Edit(key, text)) == Some(w.(state := OnFieldEdited(w.state, key, text)))
  {
  }

  lemma SubmitStep(w: World)
    requires SubmitReachesHandler(w.state)
    ensures Step(w, Submit) == Some(w.(state := HandleSubmit(w.state).next, imageInFlight := w.imageInFlight + [RequestBody(w.state)]))
  {
  }

  lemma ImageTextStep(w: World, body: string)
    requires |w.imageInFlight| > 0
    ensures Step(w, ImageArrived(Text(body))) == Some(w.(state := OnImageLoaded(w.state, body), imageInFlight := w.imageInFlight[1..]))
  {
  }

  /** The schema on display was fetched for the model that is selected now. */
  predicate SchemaMatchesSelection(w: World) {
    w.schemaOrigin.Some? ==> w.schemaOrigin.value == w.state.selectedModel
  }

  /**
   * Whenever a schema fetch for a model other than the selected one is outstanding, its reply is
   * applied: the schema and inputs come from that model while the selection stays.
   */
  lemma LateSchemaIsApplied(w: World, m: string, schema: Schema)
    requires m in w.schemaInFlight && m != w.state.selectedModel
    ensures Step(w, SchemaArrived(m, Found(schema))).Some?
    ensures var w' := Step(w, SchemaArrived(m, Found(schema))).value;
      && w'.state.selectedModel == w.state.selectedModel
      && w'.state.schema == Some(schema)
      && w'.state.inputValues == DefaultInput.DefaultValues(schema.input.properties)
      && !SchemaMatchesSelection(w')
  {
  }

  /** Load models `a` and `b`, select `a`, then `b` before `a`'s schema arrives; then `a`'s response comes in. */
  function StaleTrace(a: Model, b: Model, schema: Schema): seq<Event> {
    [ModelsArrived([a, b]), Select(a.id), Select(b.id), SchemaArrived(a.id, Found(schema))]
  }

  /** Selecting `a` and then `b` leaves both schema fetches outstanding, with `b` selected. */
  lemma SwitchingLeavesBothFetches(a: Model, b: Model, schema: Schema)
    requires a.id != "" && b.id != "" && a.id != b.id
    ensures Run(Start, StaleTrace(a, b, schema)[..3]).Some?
    ensures var w := Run(Start, StaleTrace(a, b, schema)[..3]).value;
      && w.state.selectedModel == b.id
      && w.schemaInFlight == multiset{a.id, b.id}
      && w.state.schema.None?
  {
    var trace := StaleTrace(a, b, schema);
    var w1 := Start.(state := OnModelsLoaded(Start.state, [a, b]), modelsInFlight := false);
    ModelsArrivedStep(Start, [a, b]);
    assert a.id in ModelIds(w1.state.models) && b.id in ModelIds(w1.state.models) by {
      assert w1.state.models[0] == a && w1.state.models[1] == b;
    }
    var w2 := w1.(state := OnModelSelected(w1.state, a.id), schemaInFlight := w1.schemaInFlight + multiset{a.id});
    SelectStep(w1, a.id);
    var w3 := w2.(state := OnModelSelected(w2.state, b.id), schemaInFlight := w2.schemaInFlight + multiset{b.id});
    SelectStep(w2, b.id);
    RunOfSteps(trace[..3], [Start, w1, w2, w3]);
  }

  /**
   * A late schema response for a model that is no longer selected is still applied: the schema and
   * the inputs then belong to `a` while `b` is selected and `b`'s fetch is still outstanding, so
   * `SchemaMatchesSelection` holds at mount but is not an invariant.
   */
  lemma StaleSchemaIsApplied(a: Model, b: Model, schema: Schema)
    requires a.id != "" && b.id != "" && a.id != b.id
    ensures Run(Start, StaleTrace(a, b, schema)).Some?
    ensures var w := Run(Start, StaleTrace(a, b, schema)).value;
      && w.state.selectedModel == b.id
      && w.state.schema == Some(schema)
      && w.state.inputValues == DefaultInput.DefaultValues(schema.input.properties)
      && w.schemaInFlight == multiset{b.id}
      && SchemaMatchesSelection(Start)
      && !SchemaMatchesSelection(w)
  {
    var trace := StaleTrace(a, b, schema);
    SwitchingLeavesBothFetches(a, b, schema);
    var w3 := Run(Start, trace[..3]).value;
    LateSchemaIsApplied(w3, a.id, schema);
    RunSnoc(Start, trace[..3], trace[3]);
    assert trace == trace[..3] + [trace[3]];
    assert multiset{a.id, b.id} - multiset{a.id} == multiset{b.id};
  }

  /**
   * Load model `m`, select it, receive a schema with one required field `field` (no default), type
   * `text` into it, submit, and receive `url`.
   */
  function HappyTrace(m: Model, field: string, prop: SchemaProperty, text: string, url: string): seq<Event> {
    [ModelsArrived([m]), Select(m.id), SchemaArrived(m.id, Found(Schema(SchemaInput(map[field := prop], [field])))),
     Edit(field, text), Submit, ImageArrived(Text(url))]
  }

  /** After loading, selecting and receiving the schema, the form shows that schema with no values yet. */
  lemma HappyPathLoadsForm(m: Model, field: string, prop: SchemaProperty, text: string, url: string)
    requires m.id != "" && !prop.HasDefault()
    ensures Run(Start, HappyTrace(m, field, prop, text, url)[..3]).Some?
    ensures var w := Run(Start, HappyTrace(m, field, prop, text, url)[..3]).value;
      && w.state.selectedModel == m.id
      && w.state.schema == Some(Schema(SchemaInput(map[field := prop], [field])))
      && w.state.inputValues == map[]
      && !w.state.isLoading && w.state.error.None? && w.imageInFlight == []
  {
    var trace := HappyTrace(m, field, prop, text, url);
    var schema := Schema(SchemaInput(map[field := prop], [field]));
    assert Run(Start, []) == Some(Start);
    ModelsArrivedStep(Start, [m]);
    RunSnoc(Start, [], trace[0]);
    assert trace[..1] == [] + [trace[0]];
    var w1 := Run(Start, trace[..1]).value;
    assert m.id in ModelIds(w1.state.models) by { assert w1.state.models[0] == m; }
    SelectStep(w1, m.id);
    RunSnoc(Start, trace[..1], trace[1]);
    assert trace[..2] == trace[..1] + [trace[1]];
    var w2 := Run(Start, trace[..2]).value;
    assert w2.schemaInFlight == multiset{m.id};
    SchemaFoundStep(w2, m.id, schema);
    RunSnoc(Start, trace[..2], trace[2]);
    assert trace[..3] == trace[..2] + [trace[2]];
    assert DefaultInput.DefaultValues(schema.input.properties) == map[];
  }

  /** Typing the required field fills the form with exactly that text and makes it valid. */
  lemma HappyPathFillsForm(m: Model, field: string, prop: SchemaProperty, text: string, url: string)
    requires m.id != "" && text != "" && !prop.HasDefault()
    ensures Run(Start, HappyTrace(m, field, prop, text, url)[..4]).Some?
    ensures var w := Run(Start, HappyTrace(m, field, prop, text, url)[..4]).value;
      && w.state.inputValues == map[field := Str(text)]
      && SubmitReachesHandler(w.state)
      && w.state.selectedModel == m.id && w.imageInFlight == [] && w.state.error.None?
  {
    var trace := HappyTrace(m, field, prop, text, url);
    HappyPathLoadsForm(m, field, prop, text, url);
    var w3 := Run(Start, trace[..3]).value;
    EditStep(w3, field, text);
    RunSnoc(Start, trace[..3], trace[3]);
    assert trace[..4] == trace[..3] + [trace[3]];
    var w4 := Run(Start, trace[..4]).value;
    assert w4.state.inputValues == map[field := Str(text)];
    assert Filled(w4.state.inputValues, field);
  }

  /** Submitting the filled form sends exactly the model and the typed text. */
  lemma HappyPathSubmits(m: Model, field: string, prop: SchemaProperty, text: string, url: string)
    requires m.id != "" && text != "" && !prop.HasDefault()
    ensures Run(Start, HappyTrace(m, field, prop, text, url)[..5]).Some?
    ensures var w := Run(Start, HappyTrace(m, field, prop, text, url)[..5]).value;
      && w.imageInFlight == [map["model" := Str(m.id), field := Str(text)]]
      && w.state.isLoading && w.state.error.None?
  {
    var trace := HappyTrace(m, field, prop, text, url);
    HappyPathFillsForm(m, field, prop, text, url);
    var w4 := Run(Start, trace[..4]).value;
    SubmitStep(w4);
    RunSnoc(Start, trace[..4], trace[4]);
    assert trace[..5] == trace[..4] + [trace[4]];
    RequestBodyOfOneInput(w4.state, field, Str(text));
  }

  /** The happy path ends with the returned text as the image, loading stopped and no error. */
  lemma HappyPathShowsImage(m: Model, field: string, prop: SchemaProperty, text: string, url: string)
    requires m.id != "" && text != "" && !prop.HasDefault()
    ensures Run(Start, HappyTrace(m, field, prop, text, url)).Some?
    ensures var w := Run(Start, HappyTrace(m, field, prop, text, url)).value;
      && w.state.generatedImage == Some(url)
      && !w.state.isLoading
      && w.state.error.None?
      && w.imageInFlight == []
  {
    var trace := HappyTrace(m, field, prop, text, url);
    HappyPathSubmits(m, field, prop, text, url);
    var w5 := Run(Start, trace[..5]).value;
    ImageTextStep(w5, url);
    RunSnoc(Start, trace[..5], trace[5]);
    assert trace == trace[..5] + [trace[5]];
  }
}
